=== FILE: README.md ===
# gulp-cortex-handlebars-compiler: a Dafny model of the JSON read cache and the per-file transform

`index.js` exports `compiler(options)`. It builds a `Compiler` whose `compile()` returns a gulp
object stream. For each buffered file, the stream gathers two JSON documents from the working
directory: the cortex package descriptor and `cortex-shrinkwrap.json`. It renders the file's text
with `cortex-handlebars-compiler`, replaces the file's contents with the result and pushes the file
on. Both documents are read through `_read_json`, a keyed single-flight cache. Concurrent requests
for the same path share one read. A success is remembered. A failure is delivered to everyone
waiting and then forgotten, so the next request reads again.

The model has these modules:

- `Values` (values.dfy): JavaScript values and truthiness. `if (json)`, `if (!err)`, `if (err)`
  and `options.x || default` all turn on truthiness.
- `ReadCache` (read_cache.dfy): `_read_json` as two pure transitions on an immutable state. The
  state maps each path to its stored value and to the list of callbacks registered with `once` on
  the event `json:<path>`. `Request` is a call of `_read_json`. `Settle` is the completion of the
  handler for a key.
- `CacheWorld` (cache_world.dfy): a compiler instance driven by any valid sequence of requests and
  handler completions, with the invariants proved over every such sequence.
- `EmitOrder` (emit_order.dfy): the completion of one key, delivered one callback at a time the
  way `emit` calls `once` listeners. It documents the finding below.
- `Gather` (gather.dfy): the keys of `_read_pkg` and `_read_shrinkwrap`, the issuing of both reads,
  and how `async.parallel` combines their replies in `_gather_info`.
- `Pipeline` (pipeline.dfy): constructor defaults, `_render`, and the transform function of
  `compile()` for one file and for a sequence of files.

The handler (the actual file read) is not called. Its result arrives as a `Complete` event carrying
the `(err, json)` reply. The template compiler is a function parameter `compile(options, template)`.
It either throws during setup or returns a render function whose call returns text or throws.

The code reads only the package descriptor and the shrinkwrap file. It keeps no gathered context
beyond the per-path JSON cache, so every file gathers again and consults the cache. A stored value that is falsy
(say `null`) is not a hit, so the path is read again. A throw from the render function itself
(index.js:76) is outside the `try` and is not turned into an error event.

## Model

| member | source | states |
|---|---|---|
| ReadCache.Request | index.js:130-141 | A truthy stored value answers at once with `(null, value)`, starts no read and changes nothing. A falsy stored value is not a hit. Otherwise the caller joins the end of the key's waiter list. The handler starts exactly when the request misses and nobody was waiting. Other keys are untouched. |
| ReadCache.Settle | index.js:142-147 | Every registered waiter, in order, receives the identical `(err, json)` and the list ends empty. A success is stored (even a falsy one) and a failure leaves the store unchanged. No other key's value or waiters change. |
| CacheWorld.StepInv | index.js:130-148 | Every request and completion preserves the invariant. At most one read per key runs. A read runs exactly when the key has waiters. A key with a running read is not a hit. Waiters are distinct requests for that key. An unanswered request waits, and an answered one was answered exactly once. |
| CacheWorld.RunInv | index.js:130-148 | The invariant holds after any valid sequence of requests and completions. |
| CacheWorld.SingleFlight | index.js:136-148 | From a fresh compiler, no key ever has two reads running. A read runs exactly when someone waits for it. |
| CacheWorld.EveryRequestAnsweredOnce | index.js:131-147 | Once no read is running, the callback of every request made so far has been invoked exactly once. |
| CacheWorld.HitIsStable | index.js:131-134 | After a truthy value is stored, any later events leave it in place and never invoke the handler for that key again. |
| CacheWorld.FailureIsRetried | index.js:131-146 | A failed read stores nothing. The key stays a miss and the next request starts a fresh read. |
| CacheWorld.SuccessIsCached | index.js:131-134 | After a read succeeds with a truthy value, the next request is answered from the store with that value and starts no read. |
| CacheWorld.FalsySuccessIsRefetched | index.js:131-134 | A read that succeeds with a falsy value is stored, yet the next request starts a new read. |
| CacheWorld.LaterRequestJoins | index.js:136-141 | A request made while a read runs for its key only joins the waiters. It starts no read. |
| EmitOrder.Ask | index.js:130-141 | `_read_json` on one key, possibly during an emission. A hit answers at once. Otherwise the caller is registered and a read starts only if no callback is registered. |
| CacheWorld.Step | index.js:130-148 | One event of a compiler instance. A request is recorded. On a hit it is answered from the store at once with `(null, value)`. On a miss it is registered at the end of its key's waiters. A completion ends its key's one running read and hands its own `(err, json)` to every waiter of its key, in registration order. The logs only grow. A handler call is added only for a request that missed. |
| EmitOrder.BeginEmitAsWritten | index.js:142-146 | The source's completion. A success is stored before any callback runs, and a failure leaves the store. The reply emitted is the handler's. A copy of the listeners starts being called and all of them stay registered. |
| EmitOrder.SuccessStoredBeforeCalls | index.js:143-146 | A read succeeds with a truthy value, and its first callback asks again for the key. That request is answered from the store at once and starts no read. |
| EmitOrder.CallNext | index.js:138 | A `once` callback is unregistered when it is called and receives the emitted reply. |
| EmitOrder.ReentrantRequestStranded | index.js:136-146 | Take two waiters on a read that failed, or that succeeded with a falsy value. The first waiter asks again for the same key. That request starts no read and is still registered once the emission ends. The key is stuck. |
| EmitOrder.StrandedExample | index.js:136-146 | Concrete run: waiters 1 and 2, the read fails with `"ENOENT"`, and waiter 1 asks again as waiter 3. Waiter 3 stays registered with no read running. |
| EmitOrder.StuckIsPermanent | index.js:136-141 | On a stuck key every later request also joins and starts no read. |
| EmitOrder.BeginEmitFixed | index.js:142-146 | The corrected completion stores and emits like the source's. It also empties the listener list before calling the copy. |
| EmitOrder.BeginEmitFixedHealthy | index.js:136-146 | With the corrected completion, the invariant still holds during the emission: a read runs exactly when callbacks are registered. Every registered callback is in the copy being called. |
| EmitOrder.RunFixedHealthy | index.js:136-146 | With the corrected completion, the invariant holds after any sequence of requests (re-entrant ones included), completions and calls. A read runs whenever callbacks are registered, so no callback is stranded. |
| EmitOrder.FixedExample | index.js:136-146 | The run of `StrandedExample` with the corrected completion. Waiter 3's request finds no callback registered and starts a new read. |
| EmitOrder.AskHealthy | index.js:130-141 | A request, even during an emission, preserves the corrected invariant. |
| EmitOrder.CallNextHealthy | index.js:138 | Calling the next callback of a corrected emission preserves the invariant. |
| EmitOrder.AsWrittenBreaksHealthy | index.js:136-146 | The source's completion breaks that invariant as soon as a callback asks again during an emission that stored no truthy value and has another callback still to call. |
| EmitOrder.NoReentryAgrees | index.js:142-146 | When no callback asks again during the emission, the source's completion and the corrected one end in the same state. Every callback is called once with the reply, in order, and none stays registered. |
| Gather.ShrinkwrapKey | index.js:113-121 | The shrinkwrap key is `cortex-shrinkwrap.json` under the working directory. It never equals the descriptor's key, which is the working directory itself. |
| Gather.BeginGather | index.js:83-101 | `_gather_info` issues the descriptor read and then the shrinkwrap read, and each behaves as it would alone on the prior state. The immediate answers are exactly the hits' `(null, value)`, descriptor first. A hit leaves its key's waiters alone. A miss appends the caller. A read starts only for a key with no waiters and no hit. The store and all other keys are unchanged. |
| Gather.Combine | index.js:88-109 | The outcome is the pair `(pkg, shrinkWrap)` exactly when neither reply failed. Otherwise it is a truthy error that one of the reads reported, and with one failure it is that read's error. |
| Gather.CombineOrder | index.js:88-109 | Completion order matters only when both reads fail. Then the error of the read that completed first is reported. |
| Pipeline.NewCompiler | index.js:17-27 | `cwd` falls back to the process's directory, `js_ext` to `.js`, `css_ext` to `.css` and `href_root` to the empty string. The fallback happens when the option is absent or empty. A missing options object means all defaults. The cache starts empty. |
| Pipeline.Render | index.js:54-80 | A gathering error is passed on unchanged and nothing is compiled. Otherwise the compiler receives both documents, the path and the instance's `cwd`, `js_ext`, `css_ext` and `href_root`. A setup or compile throw becomes the callback's error. A throw from the render function escapes. |
| Pipeline.TransformFile | index.js:31-51 | A streamed file gives the "Streaming not supported" error and no render. Otherwise the callback runs exactly once, last, after exactly one error event or exactly one push. A successful render pushes the input once, with its contents replaced by the rendered text, and then calls back. A truthy render error is emitted unchanged. An exception escapes, with no effects, exactly when the render function threw (that value escapes) or a falsy error reached `new Buffer` (its failure escapes). |
| Pipeline.ProcessAll | index.js:31-51 | Files are transformed one after another. When nothing escapes, every file contributes its two effects. An escaping exception ends the run before all files are done. |
| Pipeline.EscapeKeepsPrefix | index.js:31-51 | When the first exception escapes from file `n`, the run ends with exactly the effects of the files before it (each already emitted or pushed and called back) and with that file's own exception. |
| Pipeline.CallbackPerFile | index.js:31-51 | When no exception escapes, a run over any number of files invokes the callback once per file. |
| Pipeline.Resilience | index.js:31-51 | When no exception escapes, the run is each file's own error-or-push plus callback, in input order. A failing file changes nothing for the other files. |
| Pipeline.ThreeFilesOneBad | index.js:31-51 | The second of three files fails to compile. Files one and three are pushed with rendered contents, file two gives exactly one error event, and all three are called back. |

## Left out

- Reading files: `cortex_json.read`, `jf.readFile` and the handler are not modelled. A read's result arrives as a `Complete` event with its `(err, json)`. A handler that calls back twice, or never, is not modelled. A completion is accepted only for a key whose read is running.
- The template compiler `cortex-handlebars-compiler` is a function parameter. Its language and output are not modelled.
- Stream plumbing (`through2`, back-pressure, `Buffer` encodings, gulp `PluginError`) is not modelled. File contents are the text `String(file.contents)` yields. An `error` event with no listener, which Node turns into a throw, is not modelled.
- `async.parallel` runs no real parallel work. The order in which the two reads complete is a parameter of `Gather.Combine`.
- `EventEmitter` and `util.inherits` are replaced by an explicit map from key to waiter list. `ReadCache.Settle` delivers to all waiters in one step. The one-callback-at-a-time emission, and the re-entrant request it allows, are modelled separately in `EmitOrder` for a single key.
- `node_path.join` normalisation of `.` and `..` segments is not modelled. `Gather.Join` only adds a separator.
- Pipeline.NewCompiler: options are modelled as absent or strings. A non-string option value (a number, say), which `||` would also test for truthiness, is not modelled.
- JavaScript numbers are integers here. Fractions, `NaN` and `-0` are not modelled, and they matter only for truthiness (of a stored value or of `err`): a `NaN` or `-0` passed as `err` would be falsy and count as a success.
- CacheWorld.StepInv: holds for the completion that delivers to all waiters in one step, with callbacks that return. It does not cover index.js as written in two cases. First, a callback may ask again for the same key while the emission is in progress (see Findings and `EmitOrder.ReentrantRequestStranded`). Second, a callback may throw inside `emit` (index.js:146), for example the uncaught render throw at index.js:76. The emission then stops and the later waiters stay registered with no read running. `EmitOrder.NoReentryAgrees` shows the source's emission agrees with the one-step delivery when neither happens.
- CacheWorld.RunInv: the same one-step delivery with returning callbacks as `CacheWorld.StepInv`.
- CacheWorld.SingleFlight: the read-runs-exactly-when-waiters-exist half holds only for the one-step delivery with returning callbacks. A re-entrant request, or a callback that throws during `emit`, leaves waiters with no read running. `EmitOrder.NoReentryAgrees` is the bridge to the source's emission.
- CacheWorld.EveryRequestAnsweredOnce: holds only for the one-step delivery with returning callbacks. A stranded re-entrant request, or a waiter after a callback that throws in `emit`, is never answered.
- CacheWorld.FailureIsRetried: the next request starts a fresh read only if it is made after the emission has finished. A same-key request made by a callback during the failed emission, while other callbacks remain, joins instead (`EmitOrder.ReentrantRequestStranded`).
- CacheWorld.FalsySuccessIsRefetched: the next request starts a new read only if it is made after the emission has finished. A same-key request made by a callback during the emission of a falsy success, while other callbacks remain, joins instead (`EmitOrder.ReentrantRequestStranded`).
- Pipeline.Render: the rendered result is always text. A render function returning a non-string is not modelled.

## Findings

| source | as written | input that shows it | evidently intended | confidence | as-written member | corrected member |
|---|---|---|---|---|---|---|
| index.js:136-146 | `listenerCount` still counts `once` callbacks that an emission in progress has not yet called. `emit` calls a copy of the listener list. | Two callbacks wait on one path (two `compile()` streams of one `Compiler`). The read fails, or succeeds with a falsy value such as a shrinkwrap file holding `null`. The first callback synchronously asks for the same path, as the next buffered file's transform does. It sees a count of 1, starts no read and is not in the copy. The path is then stuck: every later request joins and none is answered. | Every registered callback is answered by a later completion, so a read runs whenever callbacks wait. For example, empty the list before emitting. | low: requires a re-entrant request, with two waiters, during an emission that stored no truthy value; not executed | EmitOrder.ReentrantRequestStranded | EmitOrder.RunFixedHealthy |

=== FILE: cache_world.dfy ===
/** The cache of one compiler instance driven by an arbitrary sequence of events
    on the single-threaded event loop: requests (`_read_json` calls) and
    completions of handlers that were started. Waiter ids are handed out in
    request order, so request number `i` is waiter `i`. */
module CacheWorld {
  import opened Values
  import opened ReadCache

  /** `cache`: the instance state; `inflight`: keys whose handler has been invoked
      and not yet completed; `requests[i]`: the key of request `i`; `log`: every
      callback invocation so far; `fetches`: every handler invocation so far. */
  datatype World = World(
    cache: Cache,
    inflight: multiset<Key>,
    requests: seq<Key>,
    log: seq<Notification>,
    fetches: seq<Key>)

  datatype Event = Ask(key: Key) | Complete(key: Key, reply: Reply)

  const Init: World := World(ReadCache.Empty, multiset{}, [], [], [])

  /** A handler's completion arrives only for a key whose handler is running. */
  predicate Enabled(w: World, e: Event) {
    e.Ask? || e.key in w.inflight
  }

  /** One event: a request is recorded and answered or registered; a completion
      ends its key's read; the logs only grow, and by at most one handler call. */
  function Step(w: World, e: Event): (w': World)
    requires Enabled(w, e)
    ensures e.Ask? ==> w'.requests == w.requests + [e.key] && w.inflight <= w'.inflight
    ensures e.Complete? ==> w'.requests == w.requests && w'.inflight == w.inflight - multiset{e.key}
    ensures e.Complete? ==> w'.inflight[e.key] == w.inflight[e.key] - 1
    ensures w.log <= w'.log && w.fetches <= w'.fetches
    ensures w'.fetches == w.fetches || (e.Ask? && w'.fetches == w.fetches + [e.key] && !IsHit(w.cache, e.key))
    // a request is answered from the store at once, or registered as a waiter of its key
    ensures e.Ask? && IsHit(w.cache, e.key) ==>
              w'.log == w.log + [Notify(|w.requests|, Reply(Null, Stored(w.cache, e.key)))] && w'.cache == w.cache
    ensures e.Ask? && !IsHit(w.cache, e.key) ==>
              w'.log == w.log && WaitersOf(w'.cache, e.key) == WaitersOf(w.cache, e.key) + [|w.requests|]
    // a completion hands its own reply to every waiter of its key, in order
    ensures e.Complete? ==> w'.log == w.log + Deliver(WaitersOf(w.cache, e.key), e.reply)
  {
    match e
    case Ask(k) =>
      var q := Request(w.cache, k, |w.requests|);
      World(q.cache,
            if q.startsFetch then w.inflight + multiset{k} else w.inflight,
            w.requests + [k],
            w.log + q.answered,
            if q.startsFetch then w.fetches + [k] else w.fetches)
    case Complete(k, r) =>
      var s := Settle(w.cache, k, r);
      World(s.cache, w.inflight - multiset{k}, w.requests, w.log + s.answered, w.fetches)
  }

  predicate Valid(w: World, es: seq<Event>)
    decreases |es|
  {
    es == [] || (Enabled(w, es[0]) && Valid(Step(w, es[0]), es[1..]))
  }

  function Run(w: World, es: seq<Event>): World
    requires Valid(w, es)
    decreases |es|
  {
    if es == [] then w else Run(Step(w, es[0]), es[1..])
  }

  /** The waiter ids of a log of callback invocations. */
  function Recipients(log: seq<Notification>): seq<WaiterId> {
    seq(|log|, i requires 0 <= i < |log| => log[i].waiter)
  }

  /** How many times the callback of request `id` has been invoked. */
  function Calls(w: World, id: WaiterId): nat {
    multiset(Recipients(w.log))[id]
  }

  /** Request `id` is registered on the event of `k`. */
  predicate Waiting(c: Cache, k: Key, id: WaiterId) {
    id in WaitersOf(c, k)
  }

  /** At most one handler per key is running, one is running exactly when the key
      has waiters, and a key with a running handler is not a hit. */
  ghost predicate FlightInv(w: World) {
    && (forall k :: w.inflight[k] <= 1)
    && (forall k :: k in w.inflight <==> WaitersOf(w.cache, k) != [])
    && (forall k :: k in w.inflight ==> !IsHit(w.cache, k))
  }

  /** Each waiter of a key is a distinct earlier request for that key. */
  ghost predicate WaitersInv(w: World) {
    && (forall k :: Distinct(WaitersOf(w.cache, k)))
    && (forall k: Key, id: WaiterId :: Waiting(w.cache, k, id) ==> id < |w.requests| && w.requests[id] == k)
  }

  /** Only earlier requests have been answered, each exactly once if it no longer
      waits and not at all while it waits. */
  ghost predicate LogInv(w: World) {
    && (forall i :: 0 <= i < |w.log| ==> w.log[i].waiter < |w.requests|)
    && (forall id :: 0 <= id < |w.requests| ==>
          Calls(w, id) == if Waiting(w.cache, w.requests[id], id) then 0 else 1)
  }

  ghost predicate Inv(w: World) {
    FlightInv(w) && WaitersInv(w) && LogInv(w)
  }

  lemma {:induction false} DistinctCount(s: seq<WaiterId>, x: WaiterId)
    requires Distinct(s)
    ensures multiset(s)[x] == if x in s then 1 else 0
  {
    if s != [] {
      assert s == [s[0]] + s[1..];
      DistinctTail(s);
      DistinctCount(s[1..], x);
    }
  }

  lemma RecipientsAppend(log: seq<Notification>, ws: seq<WaiterId>, r: Reply)
    ensures Recipients(log + Deliver(ws, r)) == Recipients(log) + ws
  {
  }

  lemma InitInv()
    ensures Inv(Init)
  {
  }

  /** A request answered from the store. */
  lemma AskHitInv(w: World, k: Key)
    requires Inv(w) && IsHit(w.cache, k)
    ensures Inv(Step(w, Ask(k)))
  {
    var w' := Step(w, Ask(k));
    var n := |w.requests|;
    assert w'.cache == w.cache;
    assert Recipients(w'.log) == Recipients(w.log) + [n];
    assert !Waiting(w.cache, k, n);
    forall id | 0 <= id < |w'.requests|
      ensures Calls(w', id) == if Waiting(w'.cache, w'.requests[id], id) then 0 else 1
    {
      if id < n {
        assert w'.requests[id] == w.requests[id];
      }
    }
  }

  lemma AskMissFlight(w: World, k: Key)
    requires Inv(w) && !IsHit(w.cache, k)
    ensures FlightInv(Step(w, Ask(k)))
  {
  }

  lemma AskMissWaiters(w: World, k: Key)
    requires Inv(w) && !IsHit(w.cache, k)
    ensures WaitersInv(Step(w, Ask(k)))
  {
    var w' := Step(w, Ask(k));
    var n := |w.requests|;
    assert !Waiting(w.cache, k, n);
    assert WaitersOf(w'.cache, k) == WaitersOf(w.cache, k) + [n];
    forall k' ensures Distinct(WaitersOf(w'.cache, k')) {
      if k' == k {
        assert Distinct(WaitersOf(w.cache, k));
      }
    }
    forall k': Key, id: WaiterId | Waiting(w'.cache, k', id)
      ensures id < |w'.requests| && w'.requests[id] == k'
    {
      if k' != k {
        assert Waiting(w.cache, k', id);
      } else if id != n {
        assert Waiting(w.cache, k, id);
      }
    }
  }

  lemma AskMissLog(w: World, k: Key)
    requires Inv(w) && !IsHit(w.cache, k)
    ensures LogInv(Step(w, Ask(k)))
  {
    var w' := Step(w, Ask(k));
    var n := |w.requests|;
    assert !Waiting(w.cache, k, n);
    assert Recipients(w'.log) == Recipients(w.log);
    assert WaitersOf(w'.cache, k) == WaitersOf(w.cache, k) + [n];
    forall id | 0 <= id < |w'.requests|
      ensures Calls(w', id) == if Waiting(w'.cache, w'.requests[id], id) then 0 else 1
    {
      if id < n {
        assert w'.requests[id] == w.requests[id];
        assert Waiting(w'.cache, w.requests[id], id) == Waiting(w.cache, w.requests[id], id);
      }
    }
  }

  lemma CompleteFlight(w: World, k: Key, r: Reply)
    requires Inv(w) && k in w.inflight
    ensures FlightInv(Step(w, Complete(k, r)))
  {
  }

  lemma CompleteWaiters(w: World, k: Key, r: Reply)
    requires Inv(w) && k in w.inflight
    ensures WaitersInv(Step(w, Complete(k, r)))
  {
    var w' := Step(w, Complete(k, r));
    forall k': Key, id: WaiterId | Waiting(w'.cache, k', id)
      ensures id < |w'.requests| && w'.requests[id] == k'
    {
      assert Waiting(w.cache, k', id);
    }
  }

  lemma CompleteLog(w: World, k: Key, r: Reply)
    requires Inv(w) && k in w.inflight
    ensures LogInv(Step(w, Complete(k, r)))
  {
    var w' := Step(w, Complete(k, r));
    var ws := WaitersOf(w.cache, k);
    RecipientsAppend(w.log, ws, r);
    assert Recipients(w'.log) == Recipients(w.log) + ws;
    forall i | 0 <= i < |w'.log| ensures w'.log[i].waiter < |w'.requests| {
      if i >= |w.log| {
        assert w'.log[i].waiter == ws[i - |w.log|];
        assert Waiting(w.cache, k, ws[i - |w.log|]);
      }
    }
    forall id | 0 <= id < |w'.requests|
      ensures Calls(w', id) == if Waiting(w'.cache, w'.requests[id], id) then 0 else 1
    {
      DistinctCount(ws, id);
      if w.requests[id] != k {
        assert !Waiting(w.cache, k, id);
        assert Waiting(w'.cache, w.requests[id], id) == Waiting(w.cache, w.requests[id], id);
      }
    }
  }

  lemma StepInv(w: World, e: Event)
    requires Inv(w) && Enabled(w, e)
    ensures Inv(Step(w, e))
  {
    match e
    case Ask(k) =>
      if IsHit(w.cache, k) {
        AskHitInv(w, k);
      } else {
        AskMissFlight(w, k);
        AskMissWaiters(w, k);
        AskMissLog(w, k);
      }
    case Complete(k, r) =>
      CompleteFlight(w, k, r);
      CompleteWaiters(w, k, r);
      CompleteLog(w, k, r);
  }

  lemma {:induction false} RunInv(w: World, es: seq<Event>)
    requires Inv(w) && Valid(w, es)
    ensures Inv(Run(w, es))
    decreases |es|
  {
    if es != [] {
      StepInv(w, es[0]);
      RunInv(Step(w, es[0]), es[1..]);
    }
  }

  /** Single flight: from a fresh compiler, whatever happens, no key ever has two
      handlers running, and a handler is running exactly when someone waits. */
  lemma SingleFlight(es: seq<Event>)
    requires Valid(Init, es)
    ensures forall k :: Run(Init, es).inflight[k] <= 1
    ensures forall k :: k in Run(Init, es).inflight <==> WaitersOf(Run(Init, es).cache, k) != []
  {
    InitInv();
    RunInv(Init, es);
  }

  /** Once no handler is running, every request made so far has had its callback
      invoked exactly once. */
  lemma EveryRequestAnsweredOnce(es: seq<Event>)
    requires Valid(Init, es)
    requires |Run(Init, es).inflight| == 0
    ensures forall id :: 0 <= id < |Run(Init, es).requests| ==> Calls(Run(Init, es), id) == 1
  {
    InitInv();
    RunInv(Init, es);
    var w := Run(Init, es);
    assert w.inflight == multiset{};
    forall id | 0 <= id < |w.requests| ensures Calls(w, id) == 1 {
      assert w.requests[id] !in w.inflight;
    }
  }

  /** One event keeps a truthy stored value and invokes no handler for its key. */
  lemma StepKeepsHit(w: World, e: Event, k: Key)
    requires Inv(w) && Enabled(w, e) && IsHit(w.cache, k)
    ensures Stored(Step(w, e).cache, k) == Stored(w.cache, k)
    ensures w.fetches <= Step(w, e).fetches
    ensures multiset(Step(w, e).fetches)[k] == multiset(w.fetches)[k]
  {
  }

  /** A truthy stored value is never replaced and its key never fetched again,
      whatever events follow (no handler for it can be running either). */
  lemma {:induction false} HitIsStable(w: World, es: seq<Event>, k: Key)
    requires Inv(w) && Valid(w, es) && IsHit(w.cache, k)
    ensures Stored(Run(w, es).cache, k) == Stored(w.cache, k)
    ensures w.fetches <= Run(w, es).fetches
    ensures multiset(Run(w, es).fetches)[k] == multiset(w.fetches)[k]
    decreases |es|
  {
    if es != [] {
      StepKeepsHit(w, es[0], k);
      StepInv(w, es[0]);
      HitIsStable(Step(w, es[0]), es[1..], k);
    }
  }

  /** A failed fetch stores nothing: the key is still a miss, and the next request
      for it invokes the handler afresh. */
  lemma FailureIsRetried(w: World, k: Key, r: Reply)
    requires Inv(w) && k in w.inflight && Failed(r)
    ensures Stored(Step(w, Complete(k, r)).cache, k) == Stored(w.cache, k)
    ensures !IsHit(Step(w, Complete(k, r)).cache, k)
    ensures Step(Step(w, Complete(k, r)), Ask(k)).fetches == Step(w, Complete(k, r)).fetches + [k]
  {
  }

  /** A fetch that succeeds with a truthy value is stored before the waiters are
      answered; the next request is answered from the store with `(null, value)`
      and invokes no handler. */
  lemma SuccessIsCached(w: World, k: Key, r: Reply)
    requires Inv(w) && k in w.inflight && !Failed(r) && Truthy(r.json)
    ensures var w1 := Step(w, Complete(k, r));
            var w2 := Step(w1, Ask(k));
            && w2.fetches == w1.fetches
            && w2.log == w1.log + [Notify(|w1.requests|, Reply(Null, r.json))]
  {
  }

  /** A fetch that succeeds with a falsy value (say `null`) is stored, yet the
      next request is not a hit and invokes the handler again. */
  lemma FalsySuccessIsRefetched(w: World, k: Key, r: Reply)
    requires Inv(w) && k in w.inflight && !Failed(r) && !Truthy(r.json)
    ensures Stored(Step(w, Complete(k, r)).cache, k) == r.json
    ensures Step(Step(w, Complete(k, r)), Ask(k)).fetches == Step(w, Complete(k, r)).fetches + [k]
  {
  }

  /** A request made while a handler runs for its key only joins the waiters. */
  lemma LaterRequestJoins(w: World, k: Key)
    requires Inv(w) && k in w.inflight
    ensures Step(w, Ask(k)).fetches == w.fetches
    ensures Step(w, Ask(k)).inflight == w.inflight
    ensures WaitersOf(Step(w, Ask(k)).cache, k) == WaitersOf(w.cache, k) + [|w.requests|]
  {
  }
}

=== FILE: emit_order.dfy ===
/** Delivery of a settled fetch one callback at a time, for a single key.

    Node's `emit` copies the listener array and then calls each `once` wrapper in
    turn; a wrapper unregisters itself only when it is called. So while an
    emission is in progress the callbacks not yet called still count in
    `listenerCount`, and a callback added during the emission is not in the copy.
    A waiter's callback can run synchronously into another `_read_json` for the
    same path (the next file of a stream is transformed from inside the previous
    file's callback). After a failure, such a request sees a non-zero count,
    joins without starting the handler, and is never called: the key is stuck.

    `BeginEmitAsWritten` models the source; `BeginEmitFixed` clears the listener
    list before calling anyone, which is what `ReadCache.Settle` does. */
module EmitOrder {
  import opened Values
  import opened ReadCache

  /** `stored`: `jsons[path]`; `listeners`: registered callbacks; `calling`: the
      emission's copy, still to be called; `emitting`: the reply being emitted;
      `inflight`: running handlers; `log`: callbacks invoked so far. */
  datatype Emitter = Emitter(
    stored: Value,
    listeners: seq<WaiterId>,
    calling: seq<WaiterId>,
    emitting: Reply,
    inflight: nat,
    log: seq<Notification>)

  /** `s` without `x`: what `removeListener` leaves. */
  function Remove(s: seq<WaiterId>, x: WaiterId): (t: seq<WaiterId>)
    ensures forall y :: y in t <==> y in s && y != x
    ensures |t| <= |s|
  {
    if s == [] then []
    else if s[0] == x then Remove(s[1..], x)
    else [s[0]] + Remove(s[1..], x)
  }

  /** `_read_json` for this key by callback `w`; it may run inside an emission. */
  function Ask(e: Emitter, w: WaiterId): (e': Emitter)
    ensures Truthy(e.stored) ==> e' == e.(log := e.log + [Notify(w, Reply(Null, e.stored))])
    ensures !Truthy(e.stored) ==> e'.listeners == e.listeners + [w] && e'.log == e.log
    ensures e'.inflight == if !Truthy(e.stored) && e.listeners == [] then e.inflight + 1 else e.inflight
    // the emission in progress, if any, goes on unchanged: same callbacks, same reply
    ensures e'.calling == e.calling && e'.stored == e.stored && e'.emitting == e.emitting
  {
    if Truthy(e.stored) then
      e.(log := e.log + [Notify(w, Reply(Null, e.stored))])
    else
      var count := |e.listeners|;
      e.(listeners := e.listeners + [w], inflight := if count == 0 then e.inflight + 1 else e.inflight)
  }

  /** The handler's completion as written: store on success, then start `emit`
      over a copy of the listeners, leaving them registered. */
  function BeginEmitAsWritten(e: Emitter, r: Reply): (e': Emitter)
    requires e.inflight > 0 && e.calling == []
    ensures e'.calling == e.listeners && e'.listeners == e.listeners && e'.inflight == e.inflight - 1
    // a success is stored before any callback runs; a failure leaves the store
    ensures e'.stored == (if !Failed(r) then r.json else e.stored) && e'.emitting == r
    ensures e'.log == e.log
  {
    e.(stored := if !Failed(r) then r.json else e.stored,
       calling := e.listeners, emitting := r, inflight := e.inflight - 1)
  }

  /** The corrected completion: the listener list is emptied before anyone is called. */
  function BeginEmitFixed(e: Emitter, r: Reply): (e': Emitter)
    requires e.inflight > 0 && e.calling == []
    ensures e'.calling == e.listeners && e'.listeners == [] && e'.inflight == e.inflight - 1
    ensures e'.stored == (if !Failed(r) then r.json else e.stored) && e'.emitting == r
    ensures e'.log == e.log
  {
    e.(stored := if !Failed(r) then r.json else e.stored,
       calling := e.listeners, listeners := [], emitting := r, inflight := e.inflight - 1)
  }

  /** The emission calls its next `once` wrapper, which unregisters itself first. */
  function CallNext(e: Emitter): (e': Emitter)
    requires e.calling != []
    ensures e'.calling == e.calling[1..]
    ensures e'.log == e.log + [Notify(e.calling[0], e.emitting)]
    ensures forall y :: y in e'.listeners <==> y in e.listeners && y != e.calling[0]
  {
    var w := e.calling[0];
    e.(listeners := Remove(e.listeners, w), calling := e.calling[1..],
       log := e.log + [Notify(w, e.emitting)])
  }

  /** The rest of an emission when no callback issues a request. */
  function Drain(e: Emitter): (e': Emitter)
    ensures e'.calling == [] && e'.stored == e.stored && e'.inflight == e.inflight && e'.emitting == e.emitting
    decreases |e.calling|
  {
    if e.calling == [] then e else Drain(CallNext(e))
  }

  /** A registered callback, no running handler, no emission and no hit: nothing
      will ever call the callback. */
  predicate Stuck(e: Emitter) {
    e.listeners != [] && e.inflight == 0 && e.calling == [] && !Truthy(e.stored)
  }

  /** A stuck key stays stuck: a later request joins and starts no handler, and no
      completion or emission step is enabled. */
  lemma StuckIsPermanent(e: Emitter, w: WaiterId)
    requires Stuck(e)
    ensures Stuck(Ask(e, w)) && w in Ask(e, w).listeners
  {
  }

  lemma {:induction false} DrainKeeps(e: Emitter, w: WaiterId)
    requires w in e.listeners && w !in e.calling
    ensures w in Drain(e).listeners
    decreases |e.calling|
  {
    if e.calling != [] {
      assert e.calling == [e.calling[0]] + e.calling[1..];
      DrainKeeps(CallNext(e), w);
    }
  }

  /** Because the value is stored before the emission, a callback of a read that
      succeeded with a truthy value that asks again for the key is answered from
      the store at once, and no read starts. */
  lemma SuccessStoredBeforeCalls(e: Emitter, r: Reply, w: WaiterId)
    requires e.inflight > 0 && e.calling == [] && e.listeners != []
    requires !Failed(r) && Truthy(r.json)
    ensures var e1 := CallNext(BeginEmitAsWritten(e, r));
            var e2 := Ask(e1, w);
            && e1.log == e.log + [Notify(e.listeners[0], r)]
            && e2.log == e1.log + [Notify(w, Reply(Null, r.json))]
            && e2.inflight == e1.inflight && e2.listeners == e1.listeners
  {
  }

  /** The discrepancy: with two callbacks waiting on a read that failed, or that
      succeeded with a falsy value, a request the first callback makes for the
      same key is stranded once the emission ends. */
  lemma ReentrantRequestStranded(e: Emitter, r: Reply, w: WaiterId)
    requires e.inflight == 1 && e.calling == [] && !Truthy(e.stored)
    requires |e.listeners| >= 2 && Distinct(e.listeners) && w !in e.listeners
    requires !(!Failed(r) && Truthy(r.json))
    ensures var e1 := CallNext(BeginEmitAsWritten(e, r));
            var e2 := Ask(e1, w);
            && e2.inflight == 0
            && Stuck(Drain(e2))
            && w in Drain(e2).listeners
  {
    var e0 := BeginEmitAsWritten(e, r);
    var e1 := CallNext(e0);
    var e2 := Ask(e1, w);
    assert e.listeners[0] != e.listeners[1];
    assert e0.listeners[1] in e1.listeners;
    assert w !in e2.calling;
    DrainKeeps(e2, w);
  }

  /** One concrete run of the discrepancy: waiters 1 and 2, the read fails with
      `"ENOENT"`, and waiter 1 asks again as waiter 3. */
  lemma StrandedExample()
    ensures var e0 := Emitter(Undefined, [], [], Reply(Null, Undefined), 0, []);
            var e1 := Ask(Ask(e0, 1), 2);
            var e2 := Ask(CallNext(BeginEmitAsWritten(e1, Reply(Str("ENOENT"), Undefined))), 3);
            var e3 := Drain(e2);
            && e3.listeners == [3] && e3.inflight == 0 && Stuck(e3)
            && e3.log == [Notify(1, Reply(Str("ENOENT"), Undefined)), Notify(2, Reply(Str("ENOENT"), Undefined))]
  {
    var e0 := Emitter(Undefined, [], [], Reply(Null, Undefined), 0, []);
    var e1 := Ask(Ask(e0, 1), 2);
    assert e1.listeners == [1, 2] && e1.inflight == 1;
    assert Remove([1, 2], 1) == [2] by {
      assert Remove([2], 1) == [2] + Remove([], 1);
    }
    var e2 := Ask(CallNext(BeginEmitAsWritten(e1, Reply(Str("ENOENT"), Undefined))), 3);
    assert e2.listeners == [2, 3] && e2.calling == [2];
    assert Remove([2, 3], 2) == [3] by {
      assert Remove([3], 2) == [3] + Remove([], 2);
    }
    assert Drain(e2) == Drain(CallNext(e2)) == CallNext(e2);
  }

  /** The corrected invariant: at most one handler runs, one runs exactly when
      callbacks are registered, and a key with a running handler is not a hit.
      Every registered callback is therefore called by the next completion. */
  ghost predicate Healthy(e: Emitter) {
    && e.inflight <= 1
    && (e.listeners != [] <==> e.inflight == 1)
    && (e.inflight == 1 ==> !Truthy(e.stored))
  }

  lemma AskHealthy(e: Emitter, w: WaiterId)
    requires Healthy(e)
    ensures Healthy(Ask(e, w))
  {
  }

  /** With the corrected completion, every callback registered so far is in the
      emission's copy and the invariant holds even while the emission runs. */
  lemma BeginEmitFixedHealthy(e: Emitter, r: Reply)
    requires Healthy(e) && e.inflight > 0 && e.calling == []
    ensures Healthy(BeginEmitFixed(e, r))
    ensures BeginEmitFixed(e, r).calling == e.listeners
  {
  }

  lemma CallNextHealthy(e: Emitter)
    requires Healthy(e) && e.calling != [] && e.calling[0] !in e.listeners
    ensures Healthy(CallNext(e))
  {
  }

  /** What can happen to one key: a request by a new callback, the completion of
      the running read, or the next call of the emission in progress. */
  datatype Move = Req(w: WaiterId) | Finish(r: Reply) | Call

  /** Each `once` registers a new callback; a read completes only while it runs
      and, being asynchronous, never in the middle of an emission. */
  predicate CanMove(e: Emitter, m: Move) {
    match m
    case Req(w) => w !in e.listeners && w !in e.calling
    case Finish(_) => e.inflight > 0 && e.calling == []
    case Call => e.calling != []
  }

  /** One move with the corrected completion. */
  function FixedStep(e: Emitter, m: Move): Emitter
    requires CanMove(e, m)
  {
    match m
    case Req(w) => Ask(e, w)
    case Finish(r) => BeginEmitFixed(e, r)
    case Call => CallNext(e)
  }

  predicate FixedValid(e: Emitter, ms: seq<Move>)
    decreases |ms|
  {
    ms == [] || (CanMove(e, ms[0]) && FixedValid(FixedStep(e, ms[0]), ms[1..]))
  }

  function RunFixed(e: Emitter, ms: seq<Move>): Emitter
    requires FixedValid(e, ms)
    decreases |ms|
  {
    if ms == [] then e else RunFixed(FixedStep(e, ms[0]), ms[1..])
  }

  /** The corrected invariant plus: no callback is both registered and still to
      be called by the emission in progress. */
  ghost predicate FixedInv(e: Emitter) {
    Healthy(e) && forall w :: w in e.calling ==> w !in e.listeners
  }

  lemma FixedStepInv(e: Emitter, m: Move)
    requires FixedInv(e) && CanMove(e, m)
    ensures FixedInv(FixedStep(e, m))
  {
    match m
    case Req(w) => AskHealthy(e, w);
    case Finish(r) => BeginEmitFixedHealthy(e, r);
    case Call =>
      CallNextHealthy(e);
      assert forall w :: w in e.calling[1..] ==> w in e.calling;
  }

  /** With the corrected completion, whatever requests (re-entrant or not),
      completions and calls happen, a read runs exactly when callbacks are
      registered, so no callback is ever stranded. */
  lemma {:induction false} RunFixedHealthy(e: Emitter, ms: seq<Move>)
    requires FixedInv(e) && FixedValid(e, ms)
    ensures Healthy(RunFixed(e, ms))
    ensures RunFixed(e, ms).listeners != [] ==> RunFixed(e, ms).inflight == 1
    decreases |ms|
  {
    if ms != [] {
      FixedStepInv(e, ms[0]);
      RunFixedHealthy(FixedStep(e, ms[0]), ms[1..]);
    }
  }

  /** The run of `StrandedExample` with the corrected completion: waiter 3's
      request finds no callback registered and starts a new read. */
  lemma FixedExample()
    ensures var e0 := Emitter(Undefined, [], [], Reply(Null, Undefined), 0, []);
            var ms := [Req(1), Req(2), Finish(Reply(Str("ENOENT"), Undefined)), Call, Req(3), Call];
            && FixedValid(e0, ms)
            && RunFixed(e0, ms).listeners == [3] && RunFixed(e0, ms).inflight == 1
            && RunFixed(e0, ms).log == [Notify(1, Reply(Str("ENOENT"), Undefined)), Notify(2, Reply(Str("ENOENT"), Undefined))]
  {
    var e0 := Emitter(Undefined, [], [], Reply(Null, Undefined), 0, []);
    var ms := [Req(1), Req(2), Finish(Reply(Str("ENOENT"), Undefined)), Call, Req(3), Call];
    var e2 := FixedStep(FixedStep(e0, Req(1)), Req(2));
    assert e2.listeners == [1, 2] && e2.inflight == 1;
    var e3 := FixedStep(e2, ms[2]);
    assert e3.listeners == [] && e3.calling == [1, 2];
    var e4 := FixedStep(e3, Call);
    assert e4.listeners == [] && e4.calling == [2];
    var e5 := FixedStep(e4, Req(3));
    assert e5.listeners == [3] && e5.inflight == 1;
    var e6 := FixedStep(e5, Call);
    assert Remove([3], 2) == [3] by {
      assert Remove([3], 2) == [3] + Remove([], 2);
    }
    assert e6.listeners == [3];
    assert ms[1..][1..][1..][1..][1..][1..] == [];
    assert RunFixed(e0, ms) == e6;
  }

  /** The source's completion breaks the invariant as soon as one callback asks
      again during an emission that stored no truthy value with another callback still to be called. */
  lemma AsWrittenBreaksHealthy(e: Emitter, r: Reply, w: WaiterId)
    requires Healthy(e) && e.inflight == 1 && e.calling == []
    requires |e.listeners| >= 2 && Distinct(e.listeners) && w !in e.listeners
    requires !(!Failed(r) && Truthy(r.json))
    ensures !Healthy(Ask(CallNext(BeginEmitAsWritten(e, r)), w))
  {
    var e1 := CallNext(BeginEmitAsWritten(e, r));
    assert e.listeners[0] != e.listeners[1];
    assert e.listeners[1] in e1.listeners;
  }

  /** The first call of an emission over exactly the registered callbacks leaves
      exactly the rest registered. */
  lemma CallNextMatching(e: Emitter)
    requires Distinct(e.calling) && e.calling != [] && e.listeners == e.calling
    ensures CallNext(e).listeners == CallNext(e).calling
  {
    DistinctTail(e.calling);
    assert e.listeners == [e.calling[0]] + e.calling[1..];
    RemoveAbsent(e.calling[1..], e.calling[0]);
  }

  lemma {:induction false} DrainDelivers(e: Emitter)
    requires Distinct(e.calling)
    requires e.listeners == e.calling || e.listeners == []
    ensures Drain(e).listeners == []
    ensures Drain(e).log == e.log + Deliver(e.calling, e.emitting)
    decreases |e.calling|
  {
    if e.calling != [] {
      var e1 := CallNext(e);
      DistinctTail(e.calling);
      if e.listeners == e.calling {
        CallNextMatching(e);
      }
      DrainDelivers(e1);
      assert Deliver(e.calling, e.emitting) == [Notify(e.calling[0], e.emitting)] + Deliver(e1.calling, e.emitting);
    }
  }

  lemma {:induction false} RemoveAbsent(s: seq<WaiterId>, x: WaiterId)
    requires x !in s
    ensures Remove([x] + s, x) == s
    ensures Remove(s, x) == s
    decreases |s|
  {
    if s != [] {
      assert ([x] + s)[1..] == s;
      RemoveAbsent(s[1..], x);
      assert s == [s[0]] + s[1..];
    }
  }

  /** When no callback asks again during the emission, the source's completion
      and the corrected one end in the same state: every registered callback
      called once with the reply, in registration order, and none left. */
  lemma NoReentryAgrees(e: Emitter, r: Reply)
    requires e.inflight > 0 && e.calling == [] && Distinct(e.listeners)
    ensures Drain(BeginEmitAsWritten(e, r)) == Drain(BeginEmitFixed(e, r))
    ensures Drain(BeginEmitFixed(e, r)).log == e.log + Deliver(e.listeners, r)
    ensures Drain(BeginEmitFixed(e, r)).listeners == []
  {
    DrainDelivers(BeginEmitAsWritten(e, r));
    DrainDelivers(BeginEmitFixed(e, r));
  }
}

=== FILE: gather.dfy ===
/** `_gather_info`, `_read_pkg` and `_read_shrinkwrap`: two cache reads under the
    working directory, combined by `async.parallel` into one outcome. */
module Gather {
  import opened Values
  import opened ReadCache

  /** The lock file read from the working directory. */
  const ShrinkwrapName: string := "cortex-shrinkwrap.json"

  /** `node_path.join(dir, name)` for a single file name. */
  function Join(dir: string, name: string): (p: string)
    requires name != ""
    ensures dir <= p && |p| > |dir| && |p| >= |name|
    ensures p[|p| - |name|..] == name
  {
    if dir == "" then name
    else if dir[|dir| - 1] == '/' then dir + name
    else dir + "/" + name
  }

  /** `_read_pkg` reads the package descriptor keyed by the working directory itself. */
  function DescriptorKey(cwd: string): Key {
    cwd
  }

  /** `_read_shrinkwrap` reads `cortex-shrinkwrap.json` under the working directory;
      its key is never the descriptor's key. */
  function ShrinkwrapKey(cwd: string): (k: Key)
    ensures cwd <= k && k != DescriptorKey(cwd) && |k| >= |ShrinkwrapName|
    ensures k[|k| - |ShrinkwrapName|..] == ShrinkwrapName
  {
    Join(cwd, ShrinkwrapName)
  }

  /** The outcome `_gather_info` hands its callback: both documents, or an error. */
  datatype Gathered = Info(pkg: Value, shrinkWrap: Value) | GatherFailed(err: Value)

  /** `async.parallel` over the two reads, given the reply each read delivered and
      which of them completed first: the first truthy error is reported at once;
      with no error both values are reported. */
  function Combine(pkg: Reply, sw: Reply, pkgFirst: bool): (g: Gathered)
    ensures g.Info? <==> !Failed(pkg) && !Failed(sw)
    ensures g.Info? ==> g.pkg == pkg.json && g.shrinkWrap == sw.json
    ensures g.GatherFailed? ==> Truthy(g.err) && (g.err == pkg.err || g.err == sw.err)
    ensures Failed(pkg) && !Failed(sw) ==> g == GatherFailed(pkg.err)
    ensures !Failed(pkg) && Failed(sw) ==> g == GatherFailed(sw.err)
  {
    if Failed(pkg) && (pkgFirst || !Failed(sw)) then GatherFailed(pkg.err)
    else if Failed(sw) then GatherFailed(sw.err)
    else Info(pkg.json, sw.json)
  }

  /** The order in which the reads complete matters only when both fail; then the
      error of the read that completed first is the one reported. */
  lemma CombineOrder(pkg: Reply, sw: Reply)
    ensures !(Failed(pkg) && Failed(sw)) ==> Combine(pkg, sw, true) == Combine(pkg, sw, false)
    ensures Failed(pkg) && Failed(sw) ==>
              Combine(pkg, sw, true) == GatherFailed(pkg.err) && Combine(pkg, sw, false) == GatherFailed(sw.err)
  {
  }

  /** The state after `_gather_info` has issued both reads. */
  datatype Begun = Begun(cache: Cache, answered: seq<Notification>, fetches: seq<Key>)

  /** `_gather_info` issues the descriptor read (callback `wPkg`) and then the
      shrinkwrap read (callback `wSw`). Because the keys differ, each read behaves
      exactly as it would alone on the state before the call. */
  function BeginGather(c: Cache, cwd: string, wPkg: WaiterId, wSw: WaiterId): (b: Begun)
    ensures b.fetches == (if StartsFetch(c, DescriptorKey(cwd)) then [DescriptorKey(cwd)] else [])
                       + (if StartsFetch(c, ShrinkwrapKey(cwd)) then [ShrinkwrapKey(cwd)] else [])
    ensures IsHit(c, DescriptorKey(cwd)) ==> Notify(wPkg, Reply(Null, Stored(c, DescriptorKey(cwd)))) in b.answered
    ensures IsHit(c, ShrinkwrapKey(cwd)) ==> Notify(wSw, Reply(Null, Stored(c, ShrinkwrapKey(cwd)))) in b.answered
    ensures !IsHit(c, DescriptorKey(cwd)) ==>
              WaitersOf(b.cache, DescriptorKey(cwd)) == WaitersOf(c, DescriptorKey(cwd)) + [wPkg]
    ensures !IsHit(c, ShrinkwrapKey(cwd)) ==>
              WaitersOf(b.cache, ShrinkwrapKey(cwd)) == WaitersOf(c, ShrinkwrapKey(cwd)) + [wSw]
    ensures b.answered == (if IsHit(c, DescriptorKey(cwd)) then [Notify(wPkg, Reply(Null, Stored(c, DescriptorKey(cwd))))] else [])
                        + (if IsHit(c, ShrinkwrapKey(cwd)) then [Notify(wSw, Reply(Null, Stored(c, ShrinkwrapKey(cwd))))] else [])
    ensures IsHit(c, DescriptorKey(cwd)) ==> WaitersOf(b.cache, DescriptorKey(cwd)) == WaitersOf(c, DescriptorKey(cwd))
    ensures IsHit(c, ShrinkwrapKey(cwd)) ==> WaitersOf(b.cache, ShrinkwrapKey(cwd)) == WaitersOf(c, ShrinkwrapKey(cwd))
    ensures b.cache.jsons == c.jsons
    ensures forall k :: k != DescriptorKey(cwd) && k != ShrinkwrapKey(cwd) ==> WaitersOf(b.cache, k) == WaitersOf(c, k)
  {
    var dk := DescriptorKey(cwd);
    var sk := ShrinkwrapKey(cwd);
    var q1 := Request(c, dk, wPkg);
    var q2 := Request(q1.cache, sk, wSw);
    Begun(q2.cache, q1.answered + q2.answered,
          (if q1.startsFetch then [dk] else []) + (if q2.startsFetch then [sk] else []))
  }
}

=== FILE: pipeline.dfy ===
/** The `Compiler` instance: its construction, `_render`, and the per-file
    transform of `compile()`. The external template compiler is a parameter:
    `compile(options, template)` either throws during setup or yields a render
    function, whose call in turn returns text or throws. */
module Pipeline {
  import opened Values
  import opened ReadCache
  import opened Gather

  /** The recognised construction options; `None` is an absent property. */
  datatype Options = Options(cwd: Option<string>, jsExt: Option<string>, cssExt: Option<string>, hrefRoot: Option<string>)

  /** A compiler instance: its configuration and its JSON cache. */
  datatype Compiler = Compiler(cwd: string, jsExt: string, cssExt: string, hrefRoot: string, cache: Cache)

  /** `option || fallback` for a string option: an absent or empty option falls back. */
  function OrDefault(o: Option<string>, fallback: string): string {
    if o.Some? && o.value != "" then o.value else fallback
  }

  /** `compiler(options)`: an absent options object is `{}`; `processCwd` stands for
      `process.cwd()`. Every option falls back to its default when absent or empty
      (an empty string is falsy for `||`), and the cache starts empty. */
  function NewCompiler(options: Option<Options>, processCwd: string): (c: Compiler)
    ensures c.cache == ReadCache.Empty
    ensures options.None? ==> c == Compiler(processCwd, ".js", ".css", "", ReadCache.Empty)
    ensures c.cwd == processCwd || (options.Some? && options.value.cwd == Some(c.cwd) && c.cwd != "")
    ensures options.Some? && options.value.cwd.Some? && options.value.cwd.value != "" ==> c.cwd == options.value.cwd.value
    ensures c.jsExt == ".js" || (options.Some? && options.value.jsExt == Some(c.jsExt) && c.jsExt != "")
    ensures options.Some? && options.value.jsExt.Some? && options.value.jsExt.value != "" ==> c.jsExt == options.value.jsExt.value
    ensures c.cssExt == ".css" || (options.Some? && options.value.cssExt == Some(c.cssExt) && c.cssExt != "")
    ensures options.Some? && options.value.cssExt.Some? && options.value.cssExt.value != "" ==> c.cssExt == options.value.cssExt.value
    ensures c.hrefRoot == "" || (options.Some? && options.value.hrefRoot == Some(c.hrefRoot))
    ensures options.Some? && options.value.hrefRoot.Some? ==> c.hrefRoot == options.value.hrefRoot.value
  {
    var o := if options.Some? then options.value else Options(None, None, None, None);
    Compiler(OrDefault(o.cwd, processCwd), OrDefault(o.jsExt, ".js"), OrDefault(o.cssExt, ".css"),
             OrDefault(o.hrefRoot, ""), ReadCache.Empty)
  }

  /** The options object handed to the external compiler. */
  datatype CompileOptions = CompileOptions(
    pkg: Value, shrinkWrap: Value, cwd: string, path: string,
    jsExt: string, cssExt: string, hrefRoot: string)

  /** Calling the render function: text, or a thrown value. */
  datatype RunOutcome = Returned(text: string) | Threw(e: Value)

  /** `compiler(options).compile(template)`: a thrown value, or a render function. */
  datatype Compiled = SetupThrew(e: Value) | Ready(run: RunOutcome)

  /** What `_render` does: call back with text, call back with an error, or let an
      exception escape without calling back. */
  datatype Rendered = RenderOk(text: string) | RenderErr(err: Value) | RenderEscaped(e: Value)

  function OptionsFor(c: Compiler, path: string, pkg: Value, shrinkWrap: Value): CompileOptions {
    CompileOptions(pkg, shrinkWrap, c.cwd, path, c.jsExt, c.cssExt, c.hrefRoot)
  }

  /** `_render(path, template, callback)` given the outcome `g` of `_gather_info`. */
  function Render(c: Compiler, path: string, template: string, g: Gathered,
                  compile: (CompileOptions, string) -> Compiled): (r: Rendered)
    // nothing is compiled without both documents; a gathering error is passed on unchanged
    ensures g.GatherFailed? ==> r == RenderErr(g.err)
    ensures !r.RenderErr? ==> g.Info?
    // the compiler sees the gathered documents and the instance's configuration
    ensures g.Info? ==>
              var out := compile(OptionsFor(c, path, g.pkg, g.shrinkWrap), template);
              && (out.SetupThrew? <==> r.RenderErr?)
              && (out.SetupThrew? ==> r.err == out.e)
              && (r.RenderOk? ==> out == Ready(Returned(r.text)))
              && (out.Ready? && out.run.Returned? ==> r == RenderOk(out.run.text))
              // a throw from the render function itself is not caught
              && (r.RenderEscaped? ==> out == Ready(Threw(r.e)))
              && (out.Ready? && out.run.Threw? ==> r == RenderEscaped(out.run.e))
  {
    match g
    case GatherFailed(err) => RenderErr(err)
    case Info(pkg, shrinkWrap) =>
      match compile(OptionsFor(c, path, pkg, shrinkWrap), template)
      case SetupThrew(e) => RenderErr(e)
      case Ready(Returned(text)) => RenderOk(text)
      case Ready(Threw(e)) => RenderEscaped(e)
  }

  /** A file on the stream; `contents` is the text `String(file.contents)` yields. */
  datatype File = File(path: string, contents: string, isStream: bool)

  /** The payload of an `error` event on the stream. */
  datatype StreamError = StreamingNotSupported | Failure(err: Value)

  /** What the transform does, in order. */
  datatype Effect = EmitError(error: StreamError) | Push(file: File) | Callback

  /** An exception escaping the transform: the render function threw, or a falsy
      error value reached `new Buffer(undefined)`. */
  datatype Uncaught = RenderThrew(e: Value) | BufferOfUndefined

  datatype Transformed = Transformed(effects: seq<Effect>, uncaught: Option<Uncaught>)

  /** The transform function of `compile()` for one file, given the outcome `g`
      of gathering for it. */
  function TransformFile(c: Compiler, f: File, g: Gathered,
                         compile: (CompileOptions, string) -> Compiled): (t: Transformed)
    // a streamed file is rejected without rendering, and the stream moves on
    ensures f.isStream ==> t == Transformed([EmitError(StreamingNotSupported), Callback], None)
    // unless an exception escapes, the callback runs exactly once, last, after
    // exactly one of an error event or a push
    ensures t.uncaught.None? ==> |t.effects| == 2 && t.effects[1] == Callback && !t.effects[0].Callback?
    ensures t.uncaught.Some? ==> t.effects == [] && !f.isStream
    // the file pushed is the input with its contents replaced by the rendered text
    ensures forall i :: 0 <= i < |t.effects| && t.effects[i].Push? ==>
              && !f.isStream
              && Render(c, f.path, f.contents, g, compile) == RenderOk(t.effects[i].file.contents)
              && t.effects[i].file == f.(contents := t.effects[i].file.contents)
    // a successful render pushes the rendered file once and calls back
    ensures !f.isStream && Render(c, f.path, f.contents, g, compile).RenderOk? ==>
              t == Transformed([Push(f.(contents := Render(c, f.path, f.contents, g, compile).text)), Callback], None)
    // an exception escapes exactly when the render function threw or a falsy error reached `new Buffer`
    ensures t.uncaught.Some? <==>
              !f.isStream && (Render(c, f.path, f.contents, g, compile).RenderEscaped?
                              || (Render(c, f.path, f.contents, g, compile).RenderErr?
                                  && !Truthy(Render(c, f.path, f.contents, g, compile).err)))
    // which exception escapes
    ensures !f.isStream && Render(c, f.path, f.contents, g, compile).RenderEscaped? ==>
              t.uncaught == Some(RenderThrew(Render(c, f.path, f.contents, g, compile).e))
    ensures !f.isStream && Render(c, f.path, f.contents, g, compile).RenderErr?
            && !Truthy(Render(c, f.path, f.contents, g, compile).err) ==>
              t.uncaught == Some(BufferOfUndefined)
    // a render error is reported as it is, once
    ensures !f.isStream && Render(c, f.path, f.contents, g, compile).RenderErr?
            && Truthy(Render(c, f.path, f.contents, g, compile).err) ==>
              t.effects == [EmitError(Failure(Render(c, f.path, f.contents, g, compile).err)), Callback]
  {
    if f.isStream then
      Transformed([EmitError(StreamingNotSupported), Callback], None)
    else
      match Render(c, f.path, f.contents, g, compile)
      case RenderOk(text) => Transformed([Push(f.(contents := text)), Callback], None)
      case RenderErr(err) =>
        if Truthy(err) then Transformed([EmitError(Failure(err)), Callback], None)
        else Transformed([], Some(BufferOfUndefined))
      case RenderEscaped(e) => Transformed([], Some(RenderThrew(e)))
  }

  /** One file and the gathering outcome its render received. */
  datatype Input = Input(file: File, gathered: Gathered)

  /** Files transformed one after another; an escaping exception ends the run. */
  function ProcessAll(c: Compiler, inputs: seq<Input>, compile: (CompileOptions, string) -> Compiled): (t: Transformed)
    // every file before the first escaping exception contributes its two effects;
    // an escaping exception ends the run before all files are done
    ensures |t.effects| % 2 == 0
    ensures t.uncaught.None? ==> |t.effects| == 2 * |inputs|
    ensures t.uncaught.Some? ==> |t.effects| < 2 * |inputs|
    decreases |inputs|
  {
    if inputs == [] then Transformed([], None)
    else
      var t := TransformFile(c, inputs[0].file, inputs[0].gathered, compile);
      if t.uncaught.Some? then t
      else
        var rest := ProcessAll(c, inputs[1..], compile);
        Transformed(t.effects + rest.effects, rest.uncaught)
  }

  /** One unfolding of a run in which nothing escapes. */
  lemma ProcessAllCons(c: Compiler, inputs: seq<Input>, compile: (CompileOptions, string) -> Compiled)
    requires inputs != [] && ProcessAll(c, inputs, compile).uncaught.None?
    ensures TransformFile(c, inputs[0].file, inputs[0].gathered, compile).uncaught.None?
    ensures ProcessAll(c, inputs[1..], compile).uncaught.None?
    ensures ProcessAll(c, inputs, compile).effects
              == TransformFile(c, inputs[0].file, inputs[0].gathered, compile).effects
               + ProcessAll(c, inputs[1..], compile).effects
  {
  }

  /** The effects of one file that raised nothing: something, then the callback. */
  lemma PairShape(c: Compiler, f: File, g: Gathered, compile: (CompileOptions, string) -> Compiled)
    requires TransformFile(c, f, g, compile).uncaught.None?
    ensures var t := TransformFile(c, f, g, compile).effects;
            t == [t[0], Callback] && t[0] != Callback && multiset(t)[Callback] == 1
  {
  }

  /** When nothing escapes, the callback ran once per file. */
  lemma {:induction false} CallbackPerFile(c: Compiler, inputs: seq<Input>, compile: (CompileOptions, string) -> Compiled)
    requires ProcessAll(c, inputs, compile).uncaught.None?
    ensures |ProcessAll(c, inputs, compile).effects| == 2 * |inputs|
    ensures multiset(ProcessAll(c, inputs, compile).effects)[Callback] == |inputs|
    decreases |inputs|
  {
    if inputs != [] {
      ProcessAllCons(c, inputs, compile);
      PairShape(c, inputs[0].file, inputs[0].gathered, compile);
      CallbackPerFile(c, inputs[1..], compile);
    }
  }

  lemma SliceShift<T>(t: seq<T>, rest: seq<T>, i: nat)
    requires |t| == 2 && 1 <= i && 2 * i + 2 <= |t| + |rest|
    ensures (t + rest)[2 * i .. 2 * i + 2] == rest[2 * (i - 1) .. 2 * (i - 1) + 2]
  {
  }

  /** A failing file never stalls or alters the others: when nothing escapes, the
      run is each file's own pair of effects, in input order. */
  lemma {:induction false} Resilience(c: Compiler, inputs: seq<Input>, compile: (CompileOptions, string) -> Compiled)
    requires ProcessAll(c, inputs, compile).uncaught.None?
    ensures |ProcessAll(c, inputs, compile).effects| == 2 * |inputs|
    ensures forall i :: 0 <= i < |inputs| ==>
              ProcessAll(c, inputs, compile).effects[2 * i .. 2 * i + 2]
                == TransformFile(c, inputs[i].file, inputs[i].gathered, compile).effects
    decreases |inputs|
  {
    CallbackPerFile(c, inputs, compile);
    if inputs != [] {
      ProcessAllCons(c, inputs, compile);
      PairShape(c, inputs[0].file, inputs[0].gathered, compile);
      Resilience(c, inputs[1..], compile);
      var t := TransformFile(c, inputs[0].file, inputs[0].gathered, compile).effects;
      var rest := ProcessAll(c, inputs[1..], compile).effects;
      var all := ProcessAll(c, inputs, compile).effects;
      assert all[0..2] == t;
      forall i | 1 <= i < |inputs|
        ensures all[2 * i .. 2 * i + 2] == TransformFile(c, inputs[i].file, inputs[i].gathered, compile).effects
      {
        assert inputs[1..][i - 1] == inputs[i];
        SliceShift(t, rest, i);
      }
    }
  }

  /** An exception escaping from file `n` ends the run with the effects of the
      files before it, each already emitted or pushed and called back, and with
      that file's own exception. */
  lemma {:induction false} EscapeKeepsPrefix(c: Compiler, inputs: seq<Input>, n: nat,
                                             compile: (CompileOptions, string) -> Compiled)
    requires n < |inputs|
    requires forall i :: 0 <= i < n ==> TransformFile(c, inputs[i].file, inputs[i].gathered, compile).uncaught.None?
    requires TransformFile(c, inputs[n].file, inputs[n].gathered, compile).uncaught.Some?
    ensures ProcessAll(c, inputs, compile)
              == Transformed(ProcessAll(c, inputs[..n], compile).effects,
                             TransformFile(c, inputs[n].file, inputs[n].gathered, compile).uncaught)
    decreases n
  {
    if n > 0 {
      assert inputs[..n][1..] == inputs[1..][..n - 1];
      forall i | 0 <= i < n - 1
        ensures TransformFile(c, inputs[1..][i].file, inputs[1..][i].gathered, compile).uncaught.None?
      {
        assert inputs[1..][i] == inputs[i + 1];
      }
      assert inputs[1..][n - 1] == inputs[n];
      EscapeKeepsPrefix(c, inputs[1..], n - 1, compile);
    }
  }

  /** Three files whose second fails to compile: the first and third are pushed
      with their rendered contents, the second yields one error event, and the
      callback runs for all three. */
  lemma ThreeFilesOneBad(c: Compiler, pkg: Value, shrinkWrap: Value)
    ensures var compile := (o: CompileOptions, t: string) =>
              if o.path == "b.html" then SetupThrew(Str("bad template")) else Ready(Returned("<" + t + ">"));
            var g := Info(pkg, shrinkWrap);
            var inputs := [Input(File("a.html", "A", false), g), Input(File("b.html", "B", false), g),
                           Input(File("c.html", "C", false), g)];
            ProcessAll(c, inputs, compile)
              == Transformed([Push(File("a.html", "<A>", false)), Callback,
                              EmitError(Failure(Str("bad template"))), Callback,
                              Push(File("c.html", "<C>", false)), Callback], None)
  {
    var compile := (o: CompileOptions, t: string) =>
      if o.path == "b.html" then SetupThrew(Str("bad template")) else Ready(Returned("<" + t + ">"));
    var g := Info(pkg, shrinkWrap);
    var inputs := [Input(File("a.html", "A", false), g), Input(File("b.html", "B", false), g),
                   Input(File("c.html", "C", false), g)];
    assert "<" + "A" + ">" == "<A>" && "<" + "C" + ">" == "<C>";
    assert compile(OptionsFor(c, "a.html", pkg, shrinkWrap), "A") == Ready(Returned("<A>"));
    assert compile(OptionsFor(c, "c.html", pkg, shrinkWrap), "C") == Ready(Returned("<C>"));
    assert TransformFile(c, inputs[0].file, g, compile).effects == [Push(File("a.html", "<A>", false)), Callback];
    assert TransformFile(c, inputs[1].file, g, compile).effects == [EmitError(Failure(Str("bad template"))), Callback];
    assert TransformFile(c, inputs[2].file, g, compile).effects == [Push(File("c.html", "<C>", false)), Callback];
    assert inputs[1..][1..][1..] == [];
    assert ProcessAll(c, inputs[1..][1..][1..], compile) == Transformed([], None);
    assert ProcessAll(c, inputs[1..][1..], compile) == Transformed([Push(File("c.html", "<C>", false)), Callback], None);
    assert ProcessAll(c, inputs[1..], compile).effects
           == [EmitError(Failure(Str("bad template"))), Callback, Push(File("c.html", "<C>", false)), Callback];
  }
}

=== FILE: read_cache.dfy ===
/** The keyed single-flight JSON cache of `Compiler.prototype._read_json`.

    Per key the state is the stored value `jsons[path]` (possibly absent) and the
    list of callbacks registered with `once` on the event `json:<path>`; the
    event name is a fixed prefix plus the path, so events and keys correspond
    one to one and the model indexes the waiter lists by key directly. */
module ReadCache {
  import opened Values

  type Key = string

  /** Identifies one registered callback. */
  type WaiterId = nat

  /** The `(err, json)` pair a handler passes to its completion callback. */
  datatype Reply = Reply(err: Value, json: Value)

  /** A reply whose `err` is truthy is a failure; `if (!err)` guards the store. */
  predicate Failed(r: Reply) {
    Truthy(r.err)
  }

  /** A callback invoked with a reply. */
  datatype Notification = Notify(waiter: WaiterId, reply: Reply)

  /** `jsons` maps paths to stored values; `waiters` maps paths to the
      callbacks still registered on their event, in registration order. */
  datatype Cache = Cache(jsons: map<Key, Value>, waiters: map<Key, seq<WaiterId>>)

  /** The cache of a freshly constructed compiler: `this.jsons = {}`, no listeners. */
  const Empty: Cache := Cache(map[], map[])

  /** `this.jsons[path]`: `undefined` when nothing was stored. */
  function Stored(c: Cache, k: Key): Value {
    if k in c.jsons then c.jsons[k] else Undefined
  }

  /** A request is answered from the cache only when the stored value is truthy. */
  predicate IsHit(c: Cache, k: Key) {
    Truthy(Stored(c, k))
  }

  /** The callbacks registered on the event of `k`; the length is `listenerCount`. */
  function WaitersOf(c: Cache, k: Key): seq<WaiterId> {
    if k in c.waiters then c.waiters[k] else []
  }

  /** No callback is registered twice: each `once` wraps a fresh function. */
  ghost predicate Distinct(s: seq<WaiterId>) {
    forall i, j :: 0 <= i < j < |s| ==> s[i] != s[j]
  }

  lemma DistinctTail(s: seq<WaiterId>)
    requires Distinct(s) && s != []
    ensures Distinct(s[1..]) && s[0] !in s[1..]
  {
    forall i, j | 0 <= i < j < |s[1..]| ensures s[1..][i] != s[1..][j] {
      assert s[1..][i] == s[i + 1] && s[1..][j] == s[j + 1];
    }
    forall j | 0 <= j < |s[1..]| ensures s[1..][j] != s[0] {
      assert s[1..][j] == s[j + 1];
    }
  }

  /** Whether a request for `k` invokes the handler: the stored value is no hit and
      no callback is registered, so `listenerCount` is 1 after registering. */
  predicate StartsFetch(c: Cache, k: Key) {
    !IsHit(c, k) && WaitersOf(c, k) == []
  }

  /** One notification per waiter, all carrying the same reply. */
  function Deliver(ws: seq<WaiterId>, r: Reply): seq<Notification> {
    seq(|ws|, i requires 0 <= i < |ws| => Notify(ws[i], r))
  }

  /** What a request does: the new state, the callbacks answered at once, and
      whether the handler was invoked. */
  datatype Requested = Requested(cache: Cache, answered: seq<Notification>, startsFetch: bool)

  /** `_read_json(path, handler, callback)` with `callback` identified by `w`. */
  function Request(c: Cache, k: Key, w: WaiterId): (q: Requested)
    // a truthy stored value answers at once with (null, value) and starts nothing
    ensures IsHit(c, k) ==>
              q.cache == c && q.answered == [Notify(w, Reply(Null, Stored(c, k)))] && !q.startsFetch
    // otherwise the caller joins the end of the waiter list and nobody is answered yet
    ensures !IsHit(c, k) ==>
              q.answered == [] && q.cache.jsons == c.jsons && WaitersOf(q.cache, k) == WaitersOf(c, k) + [w]
    // the handler runs exactly when the request misses and nobody was waiting
    ensures q.startsFetch <==> StartsFetch(c, k)
    // no other key is touched
    ensures forall k' :: k' != k ==> WaitersOf(q.cache, k') == WaitersOf(c, k')
  {
    if IsHit(c, k) then
      Requested(c, [Notify(w, Reply(Null, Stored(c, k)))], false)
    else
      var count := |WaitersOf(c, k)|;
      Requested(Cache(c.jsons, c.waiters[k := WaitersOf(c, k) + [w]]), [], count == 0)
  }

  /** What the settlement of a fetch does: the new state and the callbacks answered. */
  datatype Settled = Settled(cache: Cache, answered: seq<Notification>)

  /** The handler's completion callback for `k` with reply `r`: store on success,
      then emit to every registered callback (each removed as a `once` listener). */
  function Settle(c: Cache, k: Key, r: Reply): (s: Settled)
    // every waiter, in registration order, receives the identical reply
    ensures |s.answered| == |WaitersOf(c, k)|
    ensures forall i :: 0 <= i < |s.answered| ==> s.answered[i] == Notify(WaitersOf(c, k)[i], r)
    // and no waiter remains
    ensures WaitersOf(s.cache, k) == []
    // a success is stored (even a falsy one), a failure leaves the store as it was
    ensures !Failed(r) ==> s.cache.jsons == c.jsons[k := r.json]
    ensures Failed(r) ==> s.cache.jsons == c.jsons
    // no other key is touched
    ensures forall k' :: k' != k ==> WaitersOf(s.cache, k') == WaitersOf(c, k') && Stored(s.cache, k') == Stored(c, k')
  {
    var jsons := if !Failed(r) then c.jsons[k := r.json] else c.jsons;
    Settled(Cache(jsons, c.waiters - {k}), Deliver(WaitersOf(c, k), r))
  }
}

=== FILE: values.dfy ===
/** JavaScript values as they reach the compiler's callbacks: parsed JSON documents,
    the `undefined` a callback may pass, and the truthiness test behind `if (x)`,
    `if (!err)` and `x || y`. */
module Values {

  datatype Option<+T> = None | Some(value: T)

  /** A JavaScript value. Numbers are integers here; fractions and NaN are not modelled. */
  datatype Value =
    | Undefined
    | Null
    | Bool(b: bool)
    | Number(n: int)
    | Str(s: string)
    | Arr(items: seq<Value>)
    | Obj(fields: map<string, Value>)

  /** JavaScript truthiness: `undefined`, `null`, `false`, `0` and `""` are falsy,
      every other value (including an empty array or object) is truthy. */
  predicate Truthy(v: Value) {
    match v
    case Undefined => false
    case Null => false
    case Bool(b) => b
    case Number(n) => n != 0
    case Str(s) => s != ""
    case Arr(_) => true
    case Obj(_) => true
  }
}
